=== FILE: README.md ===
# Member-completion wizard, modelled in Dafny

This project models the logic of a three-step wizard. First a group leader
types their name. The wizard resolves it to one or more group ids through a
static leader table, fetches each group's member roster, and keeps the members
who lack a birth year or a phone number. On the next screen the leader fills in
the missing fields, which are validated on every keystroke. Submit is refused
while any field is malformed. Otherwise submit builds one partial update per
member. A final screen acknowledges success.

Modules, one per source file plus two shared ones:

- `Wrappers`: `Option` and `Result`.
- `Members`: the roster record. It keeps every JSON spelling of a field
  (`birthYear`/`birth_year`/`birth_date`, `phoneNumber`/`phone_number`) as its
  own field. An absent, `null` or empty value is `""`, since JavaScript treats
  all three as falsy. The module also holds the "field is missing" tests that
  both screens use.
- `MemberFields`: the validators and normalisers of the member screen. Each
  regular expression is modelled twice. One form is a token pattern with an
  anchored matcher, which is what the handlers run. The other is an
  independent character-level predicate. Lemmas prove the two agree.
- `MemberInput`: the member screen. The class `MemberForm` holds `loaded`
  (`loadedMembers`) and `drafts`, an array of rows (`memberData`). The change
  handlers update one row in place. `Submit` builds the update requests in a
  loop. `Conclude` decides the outcome once every request has answered.
- `NameInput`: the name screen. It covers `trim`, the leader lookup, the id
  list, the roster join, the incomplete-member filter and the `push` loop.
  The whole submit is the method `Resolve`.
- `App`: the class `Wizard`, which holds the `step` string and the member
  list, plus the view rendered for each step.

The network and storage are parameters, not effects:

- A roster request is `fetch(id)`: an ok flag and the parsed body.
- An update request's answer is one ok flag per request.
- The stored list is an input to `MemberForm`'s constructor and to `Resolve`,
  and `Resolve`'s result is what gets written back.

Some consequences of the code that the model keeps:

- A member who already has a phone and types only a birth year also sends
  the existing phone, because the phone fallback is
  `phone_number || phoneNumber` (`ExistingPhoneIsResent`).
- The birth-date fallback is `birth_date || birthYear`. A member kept only
  for a missing phone whose `birthYear` holds two digits sends those two
  digits as `birth_date` when it has no `birth_date` and the row leaves the
  year empty (`StoredBirthYearSentAsBirthDate`).
- The name step's filter reads the phone as `phoneNumber || phone_number`.
  The member screen's payload falls back to `phone_number || phoneNumber`,
  the opposite order. When both spellings are set and differ, the payload
  resends `phone_number` (`EffectivePhoneNumber`).
- The name screen does not parse the stored text (see Findings).
- The member screen ignores the `members` it is given and reads the stored
  list instead. The constructor takes that stored list.

## Model

| member | source | states |
|---|---|---|
| `MemberFields.MatchesPointwise` | src/components/MemberInput.jsx:37 | An anchored fixed-width pattern matches exactly the strings of its length whose characters match it position by position. |
| `MemberFields.BirthYearPatternMeaning` | src/components/MemberInput.jsx:37 | `/^\d{2}$/` accepts exactly the strings of two ASCII digits. |
| `MemberFields.HyphenatedPhonePatternMeaning` | src/components/MemberInput.jsx:51 | `/^010-\d{4}-\d{4}$/` accepts exactly `010-DDDD-DDDD`. |
| `MemberFields.BarePhonePatternMeaning` | src/components/MemberInput.jsx:52 | `/^010\d{8}$/` accepts exactly `010` followed by eight digits. |
| `MemberFields.BirthYearErrorFor` | src/components/MemberInput.jsx:37-41 | The stored birth-year error is empty iff the value is empty or two digits; otherwise it is the fixed message. |
| `MemberFields.PhoneNumberErrorFor` | src/components/MemberInput.jsx:51-57 | The stored phone error is empty iff the value is empty or has one of the two phone layouts; otherwise it is the fixed message. |
| `MemberFields.ParseBirthYear` | src/components/MemberInput.jsx:62-74 | The result is "" iff the input is not two digits. Otherwise it has length 10: "20" for a leading '0' and "19" otherwise, then the two digits, then "-01-01". |
| `MemberFields.ParseBirthYearCentury` | src/components/MemberInput.jsx:69-73 | The year of the produced date is 2000 + yy for a leading '0' and 1900 + yy otherwise, so it lies in 1910..2009. |
| `MemberFields.ParseBirthYearInjective` | src/components/MemberInput.jsx:62-74 | Different accepted years give different dates. |
| `MemberFields.ExamplesOfTheCenturyRule` | src/components/MemberInput.jsx:62-74 | "05" gives "2005-01-01", "95" gives "1995-01-01", and "5" and "123" give "". |
| `MemberFields.ExamplesOfPhoneValidation` | src/components/MemberInput.jsx:51-57 | "010-1234-5678" and "01012345678" are accepted; "010-123-5678" is rejected. |
| `MemberFields.StripHyphens` | src/components/MemberInput.jsx:79 | The result contains no '-' and is no longer than the input. |
| `MemberFields.ParsePhoneNumber` | src/components/MemberInput.jsx:76-80 | Empty input gives ""; no result contains '-'. |
| `MemberFields.StripHyphensAppend` | src/components/MemberInput.jsx:79 | Stripping distributes over concatenation. |
| `MemberFields.StripHyphensKeepsHyphenFree` | src/components/MemberInput.jsx:79 | A string without hyphens is left unchanged. |
| `MemberFields.StripHyphensKeepsOtherCharacters` | src/components/MemberInput.jsx:79 | Every character other than '-' occurs as often in the result as in the input. |
| `MemberFields.StripHyphensNonEmpty` | src/components/MemberInput.jsx:79 | The result is non-empty iff the input has a character other than '-'. |
| `MemberFields.StripHyphensOfHyphens` | src/components/MemberInput.jsx:79 | An input made only of hyphens strips to "". |
| `MemberFields.ParsePhoneNumberIdempotent` | src/components/MemberInput.jsx:76-80 | Normalising twice is the same as normalising once. |
| `MemberFields.BarePhoneNormalisesToItself` | src/components/MemberInput.jsx:76-80 | A phone in the bare layout is left unchanged. |
| `MemberFields.HyphenatedPhoneNormalisesToBare` | src/components/MemberInput.jsx:76-80 | `010-AAAA-BBBB` becomes `010AAAABBBB`. |
| `MemberFields.AcceptedPhoneNormalisesToBare` | src/components/MemberInput.jsx:51-52 | Every non-empty phone the validator accepts normalises to eleven digits starting with 010. |
| `Members.BirthYearField` | src/components/NameInput.jsx:56 | The birth-year field is empty iff both `birthYear` and `birth_year` are; `birthYear` wins when it is non-empty. |
| `Members.PhoneNumberField` | src/components/NameInput.jsx:57 | The phone field is empty iff both `phoneNumber` and `phone_number` are; `phoneNumber` wins when it is non-empty. |
| `Members.NeedsCompletion` | src/components/NameInput.jsx:59-62 | A member needs completion iff the birth year is empty under both of its key spellings or the phone is empty under both of its key spellings. |
| `MemberInput.HasError` | src/components/MemberInput.jsx:86-88 | The gate is true iff some row has a non-empty birth-year or phone error. |
| `MemberInput.GateMeansSomeInputRejected` | src/components/MemberInput.jsx:86-92 | On a consistent form, submit is blocked iff some row holds an input its validator rejects. |
| `MemberInput.EffectiveBirthDate` | src/components/MemberInput.jsx:104-106 | A typed year gives `ParseBirthYear` of it: the 10-character date of that year, or "" iff the year is not two digits. With no typed year the value is the stored `birth_date` when non-empty, else the stored `birthYear`. |
| `MemberInput.EffectivePhoneNumber` | src/components/MemberInput.jsx:108-110 | A typed phone gives `ParsePhoneNumber` of it, without '-' and no longer than the input. With no typed phone the value is the stored `phone_number` when non-empty, else the stored `phoneNumber`. |
| `MemberInput.RequestFor` | src/components/MemberInput.jsx:100-119 | The request targets the row's `userId` and `name`. Each body key is absent iff its effective value is "", and when present it carries that value, so no key is ever present with "". |
| `MemberInput.PayloadKeys` | src/components/MemberInput.jsx:104-119 | `birth_date` is present iff a well-formed year was typed, or none was typed and the member has a `birth_date`/`birthYear`. `phone_number` is present iff something other than hyphens was typed, or nothing was typed and the member has a phone. |
| `MemberInput.CleanRowPayload` | src/components/MemberInput.jsx:104-119 | A row without errors sends a typed year as the 10-character date of that year, and a typed phone as eleven digits starting with 010. |
| `MemberInput.ExistingPhoneIsResent` | src/components/MemberInput.jsx:108-119 | A member with a phone but no birth year who types a year gets a payload that holds both `birth_date` and the existing phone. |
| `MemberInput.StoredBirthYearSentAsBirthDate` | src/components/MemberInput.jsx:104-116 | With no stored `birth_date`, a two-digit stored `birthYear` and no typed year, `birth_date` is sent as those two digits, not as an ISO date. |
| `MemberInput.Conclude` | src/components/MemberInput.jsx:129-143 | Completion iff every request answered ok. Otherwise the failure message names the member of the first failing request. |
| `MemberInput.MemberForm.constructor` | src/components/MemberInput.jsx:9-30 | One blank row per stored member, in the same order, with the same `userId` and `name` and empty inputs and errors. An absent or unparsable list gives an empty form, and the gate starts open. |
| `MemberInput.MemberForm.ChangeBirthYear` | src/components/MemberInput.jsx:32-44 | The value is stored at `index` even when invalid. The error is non-empty iff the value is non-empty and not two digits. Every other row is unchanged, and the form invariant is kept. |
| `MemberInput.MemberForm.ChangePhoneNumber` | src/components/MemberInput.jsx:46-60 | The value is stored at `index` even when invalid. The error is "" iff the value is empty or has one of the two layouts. Every other row is unchanged, and the form invariant is kept. |
| `MemberInput.MemberForm.Submit` | src/components/MemberInput.jsx:82-134 | Blocked iff some row carries an error. Otherwise there is one request per row, in order, each built from that row and its stored member. |
| `NameInput.LeadingWhitespace` | src/components/NameInput.jsx:12 | Counts exactly the maximal whitespace prefix. |
| `NameInput.TrailingWhitespace` | src/components/NameInput.jsx:12 | Counts exactly the maximal whitespace suffix. |
| `NameInput.TrimEmptyIffBlank` | src/components/NameInput.jsx:12-15 | The trimmed name is empty iff the name is all whitespace. |
| `NameInput.Trim` | src/components/NameInput.jsx:12 | The trimmed name is no longer than the input and neither starts nor ends with whitespace. |
| `NameInput.TrimIsInfix` | src/components/NameInput.jsx:12 | The trimmed name is a slice of the input with only whitespace around it. |
| `NameInput.TrimIdempotent` | src/components/NameInput.jsx:12 | Trimming twice is the same as trimming once. |
| `NameInput.FindLeader` | src/components/NameInput.jsx:22-24 | None iff no entry has exactly that name; otherwise the first entry that does. |
| `NameInput.IdList` | src/components/NameInput.jsx:33 | An array of ids is used as it is; a single id becomes a list of exactly that id. |
| `NameInput.FirstFailure` | src/components/NameInput.jsx:38-47 | None iff every roster request answered ok; otherwise the first id whose request failed. |
| `NameInput.Rosters` | src/components/NameInput.jsx:50 | No ids give no members, and every joined member comes from the body of one of the ids' responses. |
| `NameInput.RostersAppend` | src/components/NameInput.jsx:50 | Joining rosters follows id order: the rosters of `a + b` are those of `a` followed by those of `b`. |
| `NameInput.RostersSingle` | src/components/NameInput.jsx:50 | One id contributes exactly its own response list, in its order and with its repeats, a `null` body giving nothing. With `RostersAppend` this fixes the whole join. |
| `NameInput.RostersMembers` | src/components/NameInput.jsx:50 | A member is in the joined list iff it is in the body of one of the ids' responses, with a `null` body read as empty. |
| `NameInput.Incomplete` | src/components/NameInput.jsx:55-62 | Keeps exactly the members that miss the birth-year or the phone field. |
| `NameInput.IncompleteAppend` | src/components/NameInput.jsx:55-63 | The filter keeps roster order. |
| `NameInput.IncompleteKeepsDuplicates` | src/components/NameInput.jsx:55-63 | No deduplication: a kept member occurs as often as in the roster. |
| `NameInput.IncompleteStep` | src/components/NameInput.jsx:55-63 | One more roster member either extends the kept list by itself, when it misses a field, or leaves it unchanged. |
| `NameInput.AppendIncomplete` | src/components/NameInput.jsx:53-63 | The result is the prior list followed by the kept members, in roster order. |
| `NameInput.ErrorMessage` | src/components/NameInput.jsx:41 | A failed roster request's message ends with its group id in parentheses. |
| `NameInput.ErrorMessagesDistinct` | src/components/NameInput.jsx:13-41 | Different failures, including failures of different group ids, show different messages. |
| `NameInput.Lookup` | src/components/NameInput.jsx:12-50 | The empty-name error iff the name is blank. The not-found error iff no entry has the trimmed name. A fetch error names an id of the first matching leader whose request failed. On success, every id of the first matching leader (a single id or the array) answered ok, and the value is their joined rosters. |
| `NameInput.Resolve` | src/components/NameInput.jsx:10-71 | Every failure of the lookup is returned as is, with nothing stored or handed on. On success the result is the stored list followed by the incomplete members of the joined rosters. |
| `NameInput.ResolveAsWritten` | src/components/NameInput.jsx:53-68 | As written, the name step fails with `push is not a function` iff the lookup succeeded, the stored text is non-empty and some member needs completion. When the stored text is non-empty and no member is kept, the text itself is handed on as a string. Lookup failures pass through. |
| `NameInput.ResolveAsWrittenWithoutStoredText` | src/components/NameInput.jsx:53-68 | With no stored text, or empty text, the as-written step hands on exactly the incomplete members of the joined rosters. |
| `NameInput.StoredTextBreaksResolve` | src/components/NameInput.jsx:53-63 | Concrete case: the stored text `[]` and one group with one incomplete member make the as-written step fail. |
| `App.Rendered` | src/App.jsx:26-34 | At most one view is rendered, exactly one iff the step is one of the three, and the member screen gets the current member list. |
| `App.OneViewPerStep` | src/App.jsx:26-34 | Each of the three steps renders its own view. Any other step value renders none. |
| `App.Wizard.Screen` | src/App.jsx:26-34 | The current screen is the single view rendered for the current step. |
| `App.Wizard.constructor` | src/App.jsx:8-9 | The wizard starts on step `name` with an empty member list. |
| `App.Wizard.HandleNameSubmit` | src/App.jsx:11-14 | The member list becomes the argument and the step becomes `member`. |
| `App.Wizard.HandleComplete` | src/App.jsx:16-18 | The step becomes `complete`; the member list is unchanged. |
| `App.Wizard.HandleBack` | src/App.jsx:20-22 | The step becomes `name` from any step; the member list is unchanged. |

## Left out

- HTTP transport (`fetch`, the backend URL from `process.env`, JSON bodies of responses): a roster response is an ok flag plus an optional list, and an update response is an ok flag.
- `Promise.all`: the roster join rejects with the first rejection in time, and the update join reports the first rejection in time. The model reports the first failure in id or row order, because timing is not modelled.
- `localStorage` and `JSON.parse`/`JSON.stringify`: the stored list is a parameter and a result. Clearing it on a successful submit and on the back button is not modelled as a state change.
- `src/components/MemberInput.jsx:149-153` (`handleBackClick`): its only logic besides clearing storage is `onBack`, which is `App.Wizard.HandleBack`.
- JSX rendering, CSS, `alert`, `console.error` and the `loading` flag. This includes which inputs a row shows (`src/components/MemberInput.jsx:177-182`), which uses the same missing-field tests as the name step (`Members.NeedsBirthYear`, `Members.NeedsPhoneNumber`) and is not modelled separately.
- Non-string JSON values: a member field, a leader id or a roster body of another JSON type (a number, a non-array object) is not modelled.
- `src/components/Complete.jsx` is not part of this model. It is a stateless view whose only action is the back callback.
- `MemberInput.MemberForm.ChangeBirthYear`, `MemberInput.MemberForm.ChangePhoneNumber`: the source shallow-copies the row array and then mutates the shared row object. The model updates the row in the one array in place. No caller can tell the difference, because both arrays share the row object.
- `NameInput.AppendIncomplete`: the source filters first and then pushes the survivors; the model filters and pushes in one pass. The result and the order are the same.

## Findings

| source | as written | input that shows it | evidently intended | confidence | as-written member | corrected member |
|---|---|---|---|---|---|---|
| src/components/NameInput.jsx:53-63 | The stored value is the raw text from `localStorage.getItem`, never parsed. When it is non-empty, `filteredMembers.push` is called on a string and throws a TypeError. The step then shows that error and stores nothing. When nothing is kept, the string itself is handed on to `onSubmit`, and storage receives `JSON.stringify` of that string: the text quoted as a JSON string (`[]` is written as `"[]"`), which the member screen's `JSON.parse` turns back into a string, not a list. | Stored text `[]` (left by an earlier run, e.g. after a reload on the member screen), and a leader with one group whose roster holds one member with no birth year. | Parse the stored text as a list (absent or unreadable meaning empty) and append the kept members to it. | high; not executed | `NameInput.ResolveAsWritten`, `NameInput.StoredTextBreaksResolve` | `NameInput.Resolve` |

=== FILE: App.dfy ===
/**
 * The three-step wizard: a `step` string that is always one of "name",
 * "member" and "complete", the member list handed from the name step to
 * the member step, the three handlers that move between steps, and the
 * view each step renders.
 */
module App {
  import opened Members

  const NameStep := "name"
  const MemberStep := "member"
  const CompleteStep := "complete"

  predicate IsStep(step: string) {
    step == NameStep || step == MemberStep || step == CompleteStep
  }

  /** The screens the wizard can show; the member screen receives the member list. */
  datatype View = NameInputView | MemberInputView(members: seq<Member>) | CompleteView

  /**
   * The views rendered for a step: one `step === ...` guard per screen.
   * At most one guard holds, so at most one view is shown, and exactly one
   * for each of the three steps; the member screen always shows the
   * current member list.
   */
  function Rendered(step: string, members: seq<Member>): (r: seq<View>)
    ensures |r| <= 1
    ensures |r| == 1 <==> IsStep(step)
    ensures forall v :: v in r && v.MemberInputView? ==> v.members == members
  {
    (if step == NameStep then [NameInputView] else [])
    + (if step == MemberStep then [MemberInputView(members)] else [])
    + (if step == CompleteStep then [CompleteView] else [])
  }

  /**
   * Each of the three steps renders its own view; any other step value
   * would render nothing.
   */
  lemma OneViewPerStep(step: string, members: seq<Member>)
    ensures step == NameStep ==> Rendered(step, members) == [NameInputView]
    ensures step == MemberStep ==> Rendered(step, members) == [MemberInputView(members)]
    ensures step == CompleteStep ==> Rendered(step, members) == [CompleteView]
    ensures !IsStep(step) ==> Rendered(step, members) == []
  {
  }

  class Wizard {
    var step: string
    var members: seq<Member>

    ghost predicate Valid()
      reads this
    {
      IsStep(step)
    }

    /** The current screen. */
    function Screen(): (v: View)
      requires Valid()
      reads this
      ensures Rendered(step, members) == [v]
    {
      if step == NameStep then NameInputView
      else if step == MemberStep then MemberInputView(members)
      else CompleteView
    }

    /** The wizard opens on the name step with no members. */
    constructor ()
      ensures Valid()
      ensures step == NameStep && members == []
    {
      step := NameStep;
      members := [];
    }

    /** `handleNameSubmit`: keep the members the name step produced and go to the member step. */
    method HandleNameSubmit(fetchedMembers: seq<Member>)
      requires Valid()
      modifies this
      ensures Valid()
      ensures step == MemberStep && members == fetchedMembers
    {
      members := fetchedMembers;
      step := MemberStep;
    }

    /** `handleComplete`: go to the completion notice; the member list is not touched. */
    method HandleComplete()
      requires Valid()
      modifies this
      ensures Valid()
      ensures step == CompleteStep && members == old(members)
    {
      step := CompleteStep;
    }

    /** `handleBack`: return to the name step from any step; the member list is not touched. */
    method HandleBack()
      requires Valid()
      modifies this
      ensures Valid()
      ensures step == NameStep && members == old(members)
    {
      step := NameStep;
    }
  }
}

=== FILE: MemberFields.dfy ===
/**
 * Field validation and value normalisation of the member-completion form.
 *
 * The source validates with three anchored regular expressions,
 * `/^\d{2}$/`, `/^010-\d{4}-\d{4}$/` and `/^010\d{8}$/`. Each of them
 * matches a fixed number of characters, one per pattern element, so a
 * pattern is modelled as a sequence of single-character tokens and
 * `Matches` is an anchored match (the whole input, nothing before or
 * after). Next to each pattern stands a character-level predicate written
 * independently (`IsTwoDigits`, `IsHyphenatedPhone`, `IsBarePhone`), and a
 * lemma proves the two agree on every input. `\d` is the ASCII digits
 * '0'..'9'.
 */
module MemberFields {

  // ---------------------------------------------------------------------
  // Patterns
  // ---------------------------------------------------------------------

  /** One element of an anchored fixed-width pattern: a literal character or `\d`. */
  datatype Token = Lit(c: char) | Digit

  predicate IsDigit(c: char) {
    '0' <= c <= '9'
  }

  predicate TokenMatches(t: Token, c: char) {
    match t
    case Lit(l) => c == l
    case Digit => IsDigit(c)
  }

  /** `^p$`: the input is matched by the pattern from its first to its last character. */
  predicate Matches(p: seq<Token>, s: string)
    decreases p
  {
    if p == [] then s == []
    else s != [] && TokenMatches(p[0], s[0]) && Matches(p[1..], s[1..])
  }

  function Literal(s: string): (p: seq<Token>)
    ensures |p| == |s|
    ensures forall i :: 0 <= i < |s| ==> p[i] == Lit(s[i])
  {
    if s == [] then [] else [Lit(s[0])] + Literal(s[1..])
  }

  function Digits(n: nat): (p: seq<Token>)
    ensures |p| == n
    ensures forall i :: 0 <= i < n ==> p[i] == Digit
  {
    if n == 0 then [] else [Digit] + Digits(n - 1)
  }

  /** `/^\d{2}$/` */
  const BirthYearPattern: seq<Token> := Digits(2)
  /** `/^010-\d{4}-\d{4}$/` */
  const HyphenatedPhonePattern: seq<Token> := Literal("010-") + Digits(4) + Literal("-") + Digits(4)
  /** `/^010\d{8}$/` */
  const BarePhonePattern: seq<Token> := Literal("010") + Digits(8)

  /** An anchored fixed-width pattern matches exactly the inputs of its length whose characters match position by position. */
  lemma {:induction false} MatchesPointwise(p: seq<Token>, s: string)
    ensures Matches(p, s) <==> |s| == |p| && forall i :: 0 <= i < |p| ==> TokenMatches(p[i], s[i])
    decreases p
  {
    if p != [] && s != [] {
      MatchesPointwise(p[1..], s[1..]);
      if |s| == |p| && forall i :: 0 <= i < |p| ==> TokenMatches(p[i], s[i]) {
        assert forall i :: 0 <= i < |p| - 1 ==> TokenMatches(p[1..][i], s[1..][i]) by {
          forall i | 0 <= i < |p| - 1 ensures TokenMatches(p[1..][i], s[1..][i]) {
            assert TokenMatches(p[i + 1], s[i + 1]);
          }
        }
      }
    }
  }

  // ---------------------------------------------------------------------
  // Character-level statements of the accepted formats
  // ---------------------------------------------------------------------

  predicate AllDigits(s: string) {
    forall i :: 0 <= i < |s| ==> IsDigit(s[i])
  }

  /** Exactly two decimal digits. */
  predicate IsTwoDigits(s: string) {
    |s| == 2 && AllDigits(s)
  }

  /** `010-DDDD-DDDD`. */
  predicate IsHyphenatedPhone(s: string) {
    |s| == 13 && s[..4] == "010-" && AllDigits(s[4..8]) && s[8] == '-' && AllDigits(s[9..])
  }

  /** `010` followed by eight digits. */
  predicate IsBarePhone(s: string) {
    |s| == 11 && s[..3] == "010" && AllDigits(s[3..])
  }

  /** What the birth-year field accepts: nothing, or exactly two digits. */
  predicate BirthYearAccepted(s: string) {
    s == "" || IsTwoDigits(s)
  }

  /** What the phone field accepts: nothing, or one of the two phone layouts. */
  predicate PhoneAccepted(s: string) {
    s == "" || IsHyphenatedPhone(s) || IsBarePhone(s)
  }

  lemma BirthYearPatternMeaning(s: string)
    ensures Matches(BirthYearPattern, s) <==> IsTwoDigits(s)
  {
    MatchesPointwise(BirthYearPattern, s);
  }

  lemma HyphenatedPhonePatternMeaning(s: string)
    ensures Matches(HyphenatedPhonePattern, s) <==> IsHyphenatedPhone(s)
  {
    var p := HyphenatedPhonePattern;
    MatchesPointwise(p, s);
    assert |p| == 13;
    assert p[0] == Lit('0') && p[1] == Lit('1') && p[2] == Lit('0') && p[3] == Lit('-');
    assert p[8] == Lit('-');
    assert forall i :: 4 <= i < 8 || 9 <= i < 13 ==> p[i] == Digit;
    if IsHyphenatedPhone(s) {
      assert s[0] == s[..4][0] && s[1] == s[..4][1] && s[2] == s[..4][2] && s[3] == s[..4][3];
      forall i | 0 <= i < 13 ensures TokenMatches(p[i], s[i]) {
        if 4 <= i < 8 {
          assert s[i] == s[4..8][i - 4];
        } else if 9 <= i {
          assert s[i] == s[9..][i - 9];
        }
      }
    }
    if Matches(p, s) {
      assert TokenMatches(p[0], s[0]) && TokenMatches(p[1], s[1]) && TokenMatches(p[2], s[2]) && TokenMatches(p[3], s[3]);
      assert s[..4] == "010-";
      forall i | 0 <= i < 4 ensures IsDigit(s[4..8][i]) {
        assert TokenMatches(p[i + 4], s[i + 4]);
      }
      forall i | 0 <= i < 4 ensures IsDigit(s[9..][i]) {
        assert TokenMatches(p[i + 9], s[i + 9]);
      }
    }
  }

  lemma BarePhonePatternMeaning(s: string)
    ensures Matches(BarePhonePattern, s) <==> IsBarePhone(s)
  {
    var p := BarePhonePattern;
    MatchesPointwise(p, s);
    assert |p| == 11;
    assert p[0] == Lit('0') && p[1] == Lit('1') && p[2] == Lit('0');
    assert forall i :: 3 <= i < 11 ==> p[i] == Digit;
    if IsBarePhone(s) {
      assert s[0] == s[..3][0] && s[1] == s[..3][1] && s[2] == s[..3][2];
      forall i | 0 <= i < 11 ensures TokenMatches(p[i], s[i]) {
        if 3 <= i {
          assert s[i] == s[3..][i - 3];
        }
      }
    }
    if Matches(p, s) {
      assert TokenMatches(p[0], s[0]) && TokenMatches(p[1], s[1]) && TokenMatches(p[2], s[2]);
      assert s[..3] == "010";
      forall i | 0 <= i < 8 ensures IsDigit(s[3..][i]) {
        assert TokenMatches(p[i + 3], s[i + 3]);
      }
    }
  }

  // ---------------------------------------------------------------------
  // Error strings set by the change handlers
  // ---------------------------------------------------------------------

  const BirthYearErrorMessage := "두자리 숫자로만 적어주세요"
  const PhoneNumberErrorMessage := "010-0000-0000 또는 01000000000 형식으로 입력해주세요"

  /** The error a birth-year change stores for `value`: the message when the value is non-empty and fails `/^\d{2}$/`, else "". */
  function BirthYearErrorFor(value: string): (error: string)
    ensures error == "" <==> BirthYearAccepted(value)
    ensures error != "" ==> error == BirthYearErrorMessage
  {
    BirthYearPatternMeaning(value);
    if value != "" && !Matches(BirthYearPattern, value) then BirthYearErrorMessage else ""
  }

  /** The error a phone change stores for `value`: the message when the value is non-empty and fails both phone patterns, else "". */
  function PhoneNumberErrorFor(value: string): (error: string)
    ensures error == "" <==> PhoneAccepted(value)
    ensures error != "" ==> error == PhoneNumberErrorMessage
  {
    HyphenatedPhonePatternMeaning(value);
    BarePhonePatternMeaning(value);
    if value != "" && !Matches(HyphenatedPhonePattern, value) && !Matches(BarePhonePattern, value)
    then PhoneNumberErrorMessage
    else ""
  }

  // ---------------------------------------------------------------------
  // Normalisers used when the payload is built
  // ---------------------------------------------------------------------

  /**
   * The two-digit year as an ISO date: "" unless the input is exactly two
   * digits; a leading '0' puts it in the 2000s, anything else in the 1900s;
   * month and day are always January 1st.
   */
  function ParseBirthYear(birthYear: string): (date: string)
    ensures date == "" <==> !IsTwoDigits(birthYear)
    ensures date != "" ==>
      && |date| == 10
      && date[..2] == (if birthYear[0] == '0' then "20" else "19")
      && date[2..4] == birthYear
      && date[4..] == "-01-01"
  {
    BirthYearPatternMeaning(birthYear);
    if birthYear == "" then ""
    else if !Matches(BirthYearPattern, birthYear) then ""
    else if birthYear[0] == '0' then "20" + birthYear + "-01-01"
    else "19" + birthYear + "-01-01"
  }

  /** The numeric value of a string of decimal digits. */
  function DigitsValue(s: string): nat
    requires AllDigits(s)
  {
    if s == [] then 0 else DigitsValue(s[..|s| - 1]) * 10 + (s[|s| - 1] as int - '0' as int)
  }

  /**
   * The century rule as numbers: the full year of the produced date is
   * 2000 + yy when the input starts with '0' and 1900 + yy otherwise, so
   * every produced year lies in 1910..1999 or 2000..2009.
   */
  lemma {:induction false} ParseBirthYearCentury(birthYear: string)
    requires IsTwoDigits(birthYear)
    ensures AllDigits(ParseBirthYear(birthYear)[..4])
    ensures DigitsValue(ParseBirthYear(birthYear)[..4]) ==
      (if birthYear[0] == '0' then 2000 else 1900) + DigitsValue(birthYear)
    ensures 1910 <= DigitsValue(ParseBirthYear(birthYear)[..4]) <= 2009
  {
    var date := ParseBirthYear(birthYear);
    var y := date[..4];
    var c := if birthYear[0] == '0' then "20" else "19";
    assert y == c + birthYear by {
      assert date[..2] == c && date[2..4] == birthYear;
      assert y == date[..2] + date[2..4];
    }
    var d0 := birthYear[0] as int - '0' as int;
    var d1 := birthYear[1] as int - '0' as int;
    assert y[..3][..2] == c && y[..3][2] == birthYear[0];
    assert y[..3][..2][..1] == [c[0]];
    assert birthYear[..1] == [birthYear[0]];
    assert DigitsValue(birthYear) == d0 * 10 + d1 by {
      assert DigitsValue([birthYear[0]]) == d0 by {
        assert [birthYear[0]][..0] == [];
      }
    }
    assert DigitsValue(y[..1]) == c[0] as int - '0' as int by {
      assert y[..1][..0] == [];
    }
    assert DigitsValue(y[..2]) == (if birthYear[0] == '0' then 20 else 19) by {
      assert y[..2][..1] == y[..1];
    }
    assert DigitsValue(y[..3]) == DigitsValue(y[..2]) * 10 + d0 by {
      assert y[..3][..2] == y[..2];
    }
    assert y[..4] == y && y[..3] == y[..4][..3];
  }

  /** Different accepted years give different dates: the two-digit year can be read back from the date. */
  lemma ParseBirthYearInjective(a: string, b: string)
    requires IsTwoDigits(a) && IsTwoDigits(b)
    requires ParseBirthYear(a) == ParseBirthYear(b)
    ensures a == b
  {
    assert ParseBirthYear(a)[2..4] == a;
  }

  /** Every '-' removed, every other character kept in order (`replace(/-/g, '')`). */
  function StripHyphens(s: string): (r: string)
    ensures |r| <= |s|
    ensures forall i :: 0 <= i < |r| ==> r[i] != '-'
  {
    if s == [] then [] else (if s[0] == '-' then [] else [s[0]]) + StripHyphens(s[1..])
  }

  /** `parsePhoneNumber`: "" for "", otherwise the input without hyphens. */
  function ParsePhoneNumber(phoneNumber: string): (r: string)
    ensures phoneNumber == "" ==> r == ""
    ensures forall i :: 0 <= i < |r| ==> r[i] != '-'
  {
    if phoneNumber == "" then "" else StripHyphens(phoneNumber)
  }

  lemma {:induction false} StripHyphensAppend(a: string, b: string)
    ensures StripHyphens(a + b) == StripHyphens(a) + StripHyphens(b)
    decreases |a|
  {
    if a != [] {
      assert (a + b)[1..] == a[1..] + b;
      StripHyphensAppend(a[1..], b);
    } else {
      assert a + b == b;
    }
  }

  /** Stripping leaves a hyphen-free string as it is. */
  lemma {:induction false} StripHyphensKeepsHyphenFree(s: string)
    requires forall i :: 0 <= i < |s| ==> s[i] != '-'
    ensures StripHyphens(s) == s
    decreases |s|
  {
    if s != [] {
      assert s[0] != '-';
      StripHyphensKeepsHyphenFree(s[1..]);
      assert [s[0]] + s[1..] == s;
    }
  }

  /** Hyphen stripping counts each character other than '-' exactly as often as the input does. */
  lemma {:induction false} StripHyphensKeepsOtherCharacters(s: string, c: char)
    requires c != '-'
    ensures multiset(StripHyphens(s))[c] == multiset(s)[c]
    decreases |s|
  {
    if s != [] {
      StripHyphensKeepsOtherCharacters(s[1..], c);
      assert s == [s[0]] + s[1..];
      assert multiset(s) == multiset([s[0]]) + multiset(s[1..]);
    }
  }

  /** A string that is not all hyphens keeps something after stripping. */
  lemma StripHyphensNonEmpty(s: string)
    ensures StripHyphens(s) != "" <==> exists i :: 0 <= i < |s| && s[i] != '-'
  {
    if exists i :: 0 <= i < |s| && s[i] != '-' {
      var i :| 0 <= i < |s| && s[i] != '-';
      StripHyphensKeepsOtherCharacters(s, s[i]);
      assert s[i] in multiset(s);
    } else {
      StripHyphensOfHyphens(s);
    }
  }

  lemma {:induction false} StripHyphensOfHyphens(s: string)
    requires forall i :: 0 <= i < |s| ==> s[i] == '-'
    ensures StripHyphens(s) == ""
    decreases |s|
  {
    if s != [] {
      StripHyphensOfHyphens(s[1..]);
    }
  }

  /** Normalising twice is normalising once. */
  lemma ParsePhoneNumberIdempotent(phoneNumber: string)
    ensures ParsePhoneNumber(ParsePhoneNumber(phoneNumber)) == ParsePhoneNumber(phoneNumber)
  {
    var once := ParsePhoneNumber(phoneNumber);
    if once != "" {
      StripHyphensKeepsHyphenFree(once);
    }
  }

  lemma AllDigitsHyphenFree(s: string)
    requires AllDigits(s)
    ensures StripHyphens(s) == s
  {
    StripHyphensKeepsHyphenFree(s);
  }

  /** "010" followed by eight digits, whatever way those digits were obtained. */
  lemma BareFromDigits(digits: string)
    requires |digits| == 8 && AllDigits(digits)
    ensures IsBarePhone("010" + digits)
  {
    var r := "010" + digits;
    assert r[..3] == "010";
    assert r[3..] == digits;
  }

  lemma BarePhoneNormalisesToItself(s: string)
    requires IsBarePhone(s)
    ensures ParsePhoneNumber(s) == s
  {
    AllDigitsHyphenFree(s[3..]);
    assert s[..3] == "010";
    StripHyphensKeepsHyphenFree(s);
  }

  lemma HyphenatedPhoneNormalisesToBare(s: string)
    requires IsHyphenatedPhone(s)
    ensures ParsePhoneNumber(s) == "010" + s[4..8] + s[9..]
  {
    var first, second := s[4..8], s[9..];
    assert s == "010-" + first + "-" + second by {
      assert s == s[..4] + s[4..8] + [s[8]] + s[9..];
    }
    StripHyphensAppend("010-" + first + "-", second);
    StripHyphensAppend("010-" + first, "-");
    StripHyphensAppend("010-", first);
    AllDigitsHyphenFree(first);
    AllDigitsHyphenFree(second);
    assert StripHyphens("010-") == "010";
    assert StripHyphens("-") == "";
  }

  /** Every non-empty phone the form accepts normalises to the bare layout: eleven digits starting with 010. */
  lemma AcceptedPhoneNormalisesToBare(phoneNumber: string)
    requires PhoneAccepted(phoneNumber) && phoneNumber != ""
    ensures IsBarePhone(ParsePhoneNumber(phoneNumber))
  {
    var s := phoneNumber;
    if IsBarePhone(s) {
      BarePhoneNormalisesToItself(s);
    } else {
      HyphenatedPhoneNormalisesToBare(s);
      var digits := s[4..8] + s[9..];
      assert AllDigits(digits) by {
        forall i | 0 <= i < 8 ensures IsDigit(digits[i]) {
          if i < 4 {
            assert digits[i] == s[4..8][i];
          } else {
            assert digits[i] == s[9..][i - 4];
          }
        }
      }
      BareFromDigits(digits);
      assert "010" + s[4..8] + s[9..] == "010" + digits;
    }
  }

  // ---------------------------------------------------------------------
  // Worked examples
  // ---------------------------------------------------------------------

  lemma ExamplesOfTheCenturyRule()
    ensures ParseBirthYear("05") == "2005-01-01"
    ensures ParseBirthYear("95") == "1995-01-01"
    ensures ParseBirthYear("5") == "" && ParseBirthYear("123") == ""
  {
    assert IsTwoDigits("05") && IsTwoDigits("95");
  }

  lemma ExamplesOfPhoneValidation()
    ensures PhoneNumberErrorFor("010-1234-5678") == ""
    ensures PhoneNumberErrorFor("01012345678") == ""
    ensures PhoneNumberErrorFor("010-123-5678") == PhoneNumberErrorMessage
  {
    assert IsHyphenatedPhone("010-1234-5678") by {
      assert "010-1234-5678"[..4] == "010-";
      assert "010-1234-5678"[4..8] == "1234";
      assert "010-1234-5678"[9..] == "5678";
    }
    assert IsBarePhone("01012345678") by {
      assert "01012345678"[..3] == "010";
      assert "01012345678"[3..] == "12345678";
    }
  }
}

=== FILE: MemberInput.dfy ===
/**
 * The member-completion form: one editable draft per stored member, the
 * two change handlers that store a keystroke's value and its validation
 * error in one row, and the submit step that refuses to send anything
 * while any row carries an error and otherwise builds one partial update
 * request per row.
 *
 * The form is a class: `loaded` is the list read from storage when the
 * form opened (`loadedMembers`), `drafts` the array of rows
 * (`memberData`) that the change handlers update in place.
 */
module MemberInput {
  import opened Wrappers
  import opened Members
  import opened MemberFields

  /** One row of the form: who it is for, what was typed, and the error each input carries. */
  datatype Draft = Draft(
    userId: string,
    name: string,
    birthYear: string,
    phoneNumber: string,
    birthYearError: string,
    phoneNumberError: string)

  /** The row the form starts with for a stored member: identity copied, inputs and errors empty. */
  function BlankDraft(m: Member): Draft {
    Draft(m.userId, m.name, "", "", "", "")
  }

  /**
   * A row belongs to its member and its errors are the ones its inputs
   * call for. The change handlers keep this true of every row.
   */
  predicate RowTracks(original: Member, d: Draft) {
    && d.userId == original.userId
    && d.name == original.name
    && d.birthYearError == BirthYearErrorFor(d.birthYear)
    && d.phoneNumberError == PhoneNumberErrorFor(d.phoneNumber)
  }

  predicate RowHasError(d: Draft) {
    d.birthYearError != "" || d.phoneNumberError != ""
  }

  /** The submit gate, `memberData.some(m => m.birthYearError || m.phoneNumberError)`. */
  function HasError(drafts: seq<Draft>): (b: bool)
    ensures b <==> exists i :: 0 <= i < |drafts| && RowHasError(drafts[i])
  {
    if drafts == [] then false
    else if RowHasError(drafts[0]) then true
    else
      var rest := HasError(drafts[1..]);
      assert forall i :: 1 <= i < |drafts| ==> drafts[i] == drafts[1..][i - 1];
      rest
  }

  /** The JSON body of `PUT /users/{userId}`: each key present only when its value is non-empty. */
  datatype Payload = Payload(birth_date: Option<string>, phone_number: Option<string>)

  /** One update request: the user it targets, the name used in its failure message, and its body. */
  datatype UpdateRequest = UpdateRequest(userId: string, name: string, body: Payload)

  /**
   * The birth date a row submits: the parsed input when one was typed (an
   * ISO date of that year, or "" for a malformed year), else the member's
   * stored value (`birth_date || birthYear || ''`).
   */
  function EffectiveBirthDate(original: Member, d: Draft): (r: string)
    ensures d.birthYear != "" ==> (r != "" <==> IsTwoDigits(d.birthYear))
    ensures d.birthYear != "" ==> r == ParseBirthYear(d.birthYear)
    ensures d.birthYear != "" && r != "" ==> |r| == 10 && r[2..4] == d.birthYear
    ensures d.birthYear == "" && original.birth_date != "" ==> r == original.birth_date
    ensures d.birthYear == "" && original.birth_date == "" ==> r == original.birthYear
    ensures d.birthYear == "" ==> (r == "" <==> original.birth_date == "" && original.birthYear == "")
  {
    if d.birthYear != "" then ParseBirthYear(d.birthYear) else Or(original.birth_date, original.birthYear)
  }

  /**
   * The phone a row submits: the typed input without its hyphens, else the
   * member's stored phone (`phone_number || phoneNumber || ''`).
   */
  function EffectivePhoneNumber(original: Member, d: Draft): (r: string)
    ensures d.phoneNumber != "" ==> r == ParsePhoneNumber(d.phoneNumber)
    ensures d.phoneNumber != "" ==> |r| <= |d.phoneNumber| && forall i :: 0 <= i < |r| ==> r[i] != '-'
    ensures d.phoneNumber == "" && original.phone_number != "" ==> r == original.phone_number
    ensures d.phoneNumber == "" && original.phone_number == "" ==> r == original.phoneNumber
    ensures d.phoneNumber == "" ==> (r == "" <==> original.phone_number == "" && original.phoneNumber == "")
  {
    if d.phoneNumber != "" then ParsePhoneNumber(d.phoneNumber) else Or(original.phone_number, original.phoneNumber)
  }

  function Present(value: string): Option<string> {
    if value != "" then Some(value) else None
  }

  /**
   * The request submit sends for one row: addressed to the row's user,
   * each body key present exactly when the row's value for it is
   * non-empty, carrying that value, and never present with an empty value.
   */
  function RequestFor(original: Member, d: Draft): (r: UpdateRequest)
    ensures r.userId == d.userId && r.name == d.name
    ensures r.body.birth_date.None? <==> EffectiveBirthDate(original, d) == ""
    ensures r.body.phone_number.None? <==> EffectivePhoneNumber(original, d) == ""
    ensures r.body.birth_date.Some? ==> r.body.birth_date.value == EffectiveBirthDate(original, d)
    ensures r.body.phone_number.Some? ==> r.body.phone_number.value == EffectivePhoneNumber(original, d)
    ensures r.body.birth_date != Some("") && r.body.phone_number != Some("")
  {
    UpdateRequest(d.userId, d.name,
      Payload(Present(EffectiveBirthDate(original, d)), Present(EffectivePhoneNumber(original, d))))
  }

  /**
   * The payload carries `birth_date` exactly when the row either typed a
   * well-formed year or left it empty over a member who already has a
   * date; it carries `phone_number` exactly when the row typed something
   * other than hyphens or left it empty over a member who already has a
   * phone. No key is ever present with an empty value.
   */
  lemma PayloadKeys(original: Member, d: Draft)
    ensures RequestFor(original, d).body.birth_date.Some? <==>
      if d.birthYear != "" then IsTwoDigits(d.birthYear) else original.birth_date != "" || original.birthYear != ""
    ensures RequestFor(original, d).body.phone_number.Some? <==>
      if d.phoneNumber != "" then exists i :: 0 <= i < |d.phoneNumber| && d.phoneNumber[i] != '-'
      else original.phone_number != "" || original.phoneNumber != ""
  {
    StripHyphensNonEmpty(d.phoneNumber);
  }

  /**
   * A row that passes the gate sends what was typed in normal form: a
   * typed year becomes a ten-character ISO date of that year, a typed
   * phone becomes eleven digits starting with 010.
   */
  lemma CleanRowPayload(original: Member, d: Draft)
    requires RowTracks(original, d) && !RowHasError(d)
    ensures d.birthYear != "" ==>
      && RequestFor(original, d).body.birth_date == Some(ParseBirthYear(d.birthYear))
      && |ParseBirthYear(d.birthYear)| == 10
      && ParseBirthYear(d.birthYear)[2..4] == d.birthYear
    ensures d.phoneNumber != "" ==>
      && RequestFor(original, d).body.phone_number == Some(ParsePhoneNumber(d.phoneNumber))
      && IsBarePhone(ParsePhoneNumber(d.phoneNumber))
  {
    if d.phoneNumber != "" {
      AcceptedPhoneNormalisesToBare(d.phoneNumber);
    }
  }

  /**
   * A member who already has a phone but no birth year is shown only the
   * birth-year input; submitting it with a year typed sends the member's
   * existing phone back as well, unchanged and not normalised.
   */
  lemma ExistingPhoneIsResent(original: Member, d: Draft)
    requires NeedsBirthYear(original) && !NeedsPhoneNumber(original)
    requires d.phoneNumber == "" && IsTwoDigits(d.birthYear)
    ensures RequestFor(original, d).body.birth_date == Some(ParseBirthYear(d.birthYear))
    ensures RequestFor(original, d).body.phone_number.Some?
    ensures RequestFor(original, d).body.phone_number.value in {original.phone_number, original.phoneNumber}
  {
  }

  /**
   * A member kept only for a missing phone may carry its year in
   * `birthYear` as two digits. When the row leaves the year empty, the
   * fallback `birth_date || birthYear` sends those two digits as
   * `birth_date`, not a ten-character ISO date: "95" goes out as "95".
   */
  lemma StoredBirthYearSentAsBirthDate(original: Member, d: Draft)
    requires original.birth_date == "" && IsTwoDigits(original.birthYear)
    requires d.birthYear == ""
    ensures RequestFor(original, d).body.birth_date == Some(original.birthYear)
    ensures |RequestFor(original, d).body.birth_date.value| == 2
  {
  }

  /** The outcome of pressing submit: nothing at all, or the requests to send. */
  datatype SubmitOutcome = Blocked | Requests(requests: seq<UpdateRequest>)

  /** What happens once every request has answered. */
  datatype Conclusion = Completed | Failed(message: string)

  function FailureMessage(name: string): string {
    "멤버 " + name + " 업데이트 실패"
  }

  /**
   * All requests answered ok: the stored list is cleared and the wizard
   * advances. Otherwise one failure is reported, naming the member of the
   * first failing request.
   */
  function Conclude(requests: seq<UpdateRequest>, ok: seq<bool>): (c: Conclusion)
    requires |ok| == |requests|
    ensures c == Completed <==> forall i :: 0 <= i < |ok| ==> ok[i]
    ensures c.Failed? ==> exists i :: 0 <= i < |ok| && !ok[i] && c.message == FailureMessage(requests[i].name)
                                      && forall j :: 0 <= j < i ==> ok[j]
  {
    if requests == [] then Completed
    else if !ok[0] then Failed(FailureMessage(requests[0].name))
    else
      var rest := Conclude(requests[1..], ok[1..]);
      assert forall i :: 1 <= i < |ok| ==> ok[i] == ok[1..][i - 1];
      if rest.Failed? then
        var k :| 0 <= k < |ok[1..]| && !ok[1..][k] && rest.message == FailureMessage(requests[1..][k].name)
                 && forall j :: 0 <= j < k ==> ok[1..][j];
        assert requests[k + 1] == requests[1..][k];
        assert forall j :: 1 <= j < k + 1 ==> ok[j] == ok[1..][j - 1];
        rest
      else
        rest
  }

  class MemberForm {
    var loaded: seq<Member>
    var drafts: array<Draft>

    ghost predicate Valid()
      reads this, drafts
    {
      && drafts.Length == |loaded|
      && forall i :: 0 <= i < |loaded| ==> RowTracks(loaded[i], drafts[i])
    }

    /**
     * Opening the form: the stored list (None when absent or unparsable,
     * which the form treats as empty) becomes `loaded`, and every member
     * gets a blank row, in the same order.
     */
    constructor (stored: Option<seq<Member>>)
      ensures Valid() && fresh(drafts)
      ensures loaded == stored.GetOr([])
      ensures forall i :: 0 <= i < drafts.Length ==> drafts[i] == BlankDraft(loaded[i])
      ensures !HasError(drafts[..])
    {
      var members := stored.GetOr([]);
      loaded := members;
      drafts := new Draft[|members|](i requires 0 <= i < |members| => BlankDraft(members[i]));
    }

    /**
     * `handleBirthYearChange`: the value is stored in row `index` even when
     * it is malformed, the row's birth-year error is set or cleared, and
     * every other row and field is left as it was.
     */
    method ChangeBirthYear(index: nat, value: string)
      requires Valid() && index < drafts.Length
      modifies drafts
      ensures Valid()
      ensures drafts[index] == old(drafts[index]).(birthYear := value, birthYearError := BirthYearErrorFor(value))
      ensures drafts[index].birthYearError != "" <==> value != "" && !IsTwoDigits(value)
      ensures forall i :: 0 <= i < drafts.Length && i != index ==> drafts[i] == old(drafts[i])
    {
      var row := drafts[index].(birthYear := value);
      BirthYearPatternMeaning(value);
      if value != "" && !Matches(BirthYearPattern, value) {
        row := row.(birthYearError := BirthYearErrorMessage);
      } else {
        row := row.(birthYearError := "");
      }
      drafts[index] := row;
    }

    /**
     * `handlePhoneNumberChange`: the value is stored in row `index` even when
     * it is malformed, the row's phone error is set unless the value is empty
     * or matches one of the two phone layouts, and nothing else changes.
     */
    method ChangePhoneNumber(index: nat, value: string)
      requires Valid() && index < drafts.Length
      modifies drafts
      ensures Valid()
      ensures drafts[index] == old(drafts[index]).(phoneNumber := value, phoneNumberError := PhoneNumberErrorFor(value))
      ensures drafts[index].phoneNumberError == "" <==>
        value == "" || IsHyphenatedPhone(value) || IsBarePhone(value)
      ensures forall i :: 0 <= i < drafts.Length && i != index ==> drafts[i] == old(drafts[i])
    {
      var row := drafts[index].(phoneNumber := value);
      HyphenatedPhonePatternMeaning(value);
      BarePhonePatternMeaning(value);
      if value != "" && !Matches(HyphenatedPhonePattern, value) && !Matches(BarePhonePattern, value) {
        row := row.(phoneNumberError := PhoneNumberErrorMessage);
      } else {
        row := row.(phoneNumberError := "");
      }
      drafts[index] := row;
    }

    /**
     * `handleSubmit` up to the network: blocked when any row carries an
     * error; otherwise one request per row, in row order, each for the
     * row's user and with the body built from the row and its member.
     */
    method Submit() returns (outcome: SubmitOutcome)
      requires Valid()
      ensures outcome.Blocked? <==> HasError(drafts[..])
      ensures outcome.Requests? ==>
        && |outcome.requests| == |loaded|
        && forall i :: 0 <= i < |loaded| ==> outcome.requests[i] == RequestFor(loaded[i], drafts[i])
    {
      if HasError(drafts[..]) {
        return Blocked;
      }
      var requests: seq<UpdateRequest> := [];
      for i := 0 to drafts.Length
        invariant |requests| == i
        invariant forall k :: 0 <= k < i ==> requests[k] == RequestFor(loaded[k], drafts[k])
      {
        var member := drafts[i];
        var original := loaded[i];
        var birthDate := if member.birthYear != "" then ParseBirthYear(member.birthYear)
                         else Or(original.birth_date, original.birthYear);
        var phoneNumber := if member.phoneNumber != "" then ParsePhoneNumber(member.phoneNumber)
                           else Or(original.phone_number, original.phoneNumber);
        var body := Payload(None, None);
        if birthDate != "" {
          body := body.(birth_date := Some(birthDate));
        }
        if phoneNumber != "" {
          body := body.(phone_number := Some(phoneNumber));
        }
        requests := requests + [UpdateRequest(member.userId, member.name, body)];
      }
      return Requests(requests);
    }
  }

  /** On a consistent form, submit is blocked exactly when some row holds an input its validator rejects. */
  lemma GateMeansSomeInputRejected(loaded: seq<Member>, drafts: seq<Draft>)
    requires |drafts| == |loaded|
    requires forall i :: 0 <= i < |loaded| ==> RowTracks(loaded[i], drafts[i])
    ensures HasError(drafts) <==>
      exists i :: 0 <= i < |drafts| && (!BirthYearAccepted(drafts[i].birthYear) || !PhoneAccepted(drafts[i].phoneNumber))
  {
    if HasError(drafts) {
      var i :| 0 <= i < |drafts| && RowHasError(drafts[i]);
      assert RowTracks(loaded[i], drafts[i]);
    }
    if exists i :: 0 <= i < |drafts| && (!BirthYearAccepted(drafts[i].birthYear) || !PhoneAccepted(drafts[i].phoneNumber)) {
      var i :| 0 <= i < |drafts| && (!BirthYearAccepted(drafts[i].birthYear) || !PhoneAccepted(drafts[i].phoneNumber));
      assert RowTracks(loaded[i], drafts[i]);
      assert RowHasError(drafts[i]);
    }
  }
}

=== FILE: Members.dfy ===
/**
 * The member record the remote roster API returns, and the two
 * "is this field missing?" tests that both the name step (to filter the
 * roster) and the member step (to decide which inputs to show) apply to it.
 *
 * JSON members carry their data under more than one key spelling
 * (`birthYear`/`birth_year`/`birth_date`, `phoneNumber`/`phone_number`);
 * the record keeps every spelling as its own field, under the JSON key's
 * name. A key that is absent, `null` or the empty string is falsy in
 * JavaScript and is represented here by "".
 */
module Members {

  datatype Member = Member(
    userId: string,
    name: string,
    birthYear: string,
    birth_year: string,
    birth_date: string,
    phoneNumber: string,
    phone_number: string)

  /** JavaScript's `a || b || ''` on two strings: the first non-empty one, else "". */
  function Or(a: string, b: string): string {
    if a != "" then a else b
  }

  /** The birth-year-equivalent field, `member.birthYear || member.birth_year || ''`. */
  function BirthYearField(m: Member): (r: string)
    ensures r == "" <==> m.birthYear == "" && m.birth_year == ""
    ensures m.birthYear != "" ==> r == m.birthYear
    ensures m.birthYear == "" ==> r == m.birth_year
  {
    Or(m.birthYear, m.birth_year)
  }

  /** The phone-equivalent field, `member.phoneNumber || member.phone_number || ''`. */
  function PhoneNumberField(m: Member): (r: string)
    ensures r == "" <==> m.phoneNumber == "" && m.phone_number == ""
    ensures m.phoneNumber != "" ==> r == m.phoneNumber
    ensures m.phoneNumber == "" ==> r == m.phone_number
  {
    Or(m.phoneNumber, m.phone_number)
  }

  predicate NeedsBirthYear(m: Member) {
    BirthYearField(m) == ""
  }

  predicate NeedsPhoneNumber(m: Member) {
    PhoneNumberField(m) == ""
  }

  /**
   * A member takes part in the completion workflow when either field is
   * missing, that is, empty under every spelling of its key.
   */
  predicate NeedsCompletion(m: Member)
    ensures NeedsCompletion(m) <==>
      || (m.birthYear == "" && m.birth_year == "")
      || (m.phoneNumber == "" && m.phone_number == "")
  {
    NeedsBirthYear(m) || NeedsPhoneNumber(m)
  }
}

=== FILE: NameInput.dfy ===
/**
 * The name step: a group leader's typed name is trimmed, looked up in the
 * static leader table, mapped to one or more group ids, each group's
 * roster is fetched, the rosters are joined in id order, and the members
 * missing a birth year or a phone are appended to the list kept in
 * storage.
 *
 * The network is a parameter: `fetch` gives, for a group id, whether the
 * roster request answered ok and the JSON it returned (None for `null`).
 * Storage is a parameter and a result: the list read from it goes in, the
 * list to write back comes out.
 */
module NameInput {
  import opened Wrappers
  import opened Members

  // ---------------------------------------------------------------------
  // String.prototype.trim
  // ---------------------------------------------------------------------

  /** The characters `trim` removes: ECMAScript WhiteSpace and LineTerminator. */
  predicate IsWhitespace(c: char) {
    || c == '\t' || c == '\n' || c == '\U{000B}' || c == '\U{000C}' || c == '\r'
    || c == ' ' || c == '\U{00A0}' || c == '\U{1680}'
    || ('\U{2000}' <= c <= '\U{200A}')
    || c == '\U{2028}' || c == '\U{2029}' || c == '\U{202F}' || c == '\U{205F}'
    || c == '\U{3000}' || c == '\U{FEFF}'
  }

  predicate AllWhitespace(s: string) {
    forall k :: 0 <= k < |s| ==> IsWhitespace(s[k])
  }

  /** How many whitespace characters the string starts with. */
  function LeadingWhitespace(s: string): (n: nat)
    ensures n <= |s|
    ensures forall k :: 0 <= k < n ==> IsWhitespace(s[k])
    ensures n < |s| ==> !IsWhitespace(s[n])
  {
    if s != [] && IsWhitespace(s[0]) then
      var n := 1 + LeadingWhitespace(s[1..]);
      assert forall k :: 1 <= k < n ==> s[k] == s[1..][k - 1];
      n
    else 0
  }

  /** How many whitespace characters the string ends with. */
  function TrailingWhitespace(s: string): (n: nat)
    ensures n <= |s|
    ensures forall k :: |s| - n <= k < |s| ==> IsWhitespace(s[k])
    ensures n < |s| ==> !IsWhitespace(s[|s| - 1 - n])
  {
    if s != [] && IsWhitespace(s[|s| - 1]) then
      var init := s[..|s| - 1];
      var n := 1 + TrailingWhitespace(init);
      assert forall k :: 0 <= k < |s| - 1 ==> s[k] == init[k];
      n
    else 0
  }

  /**
   * `s.trim()`: the string without its leading and trailing whitespace, so
   * what is left neither starts nor ends with whitespace.
   */
  function Trim(s: string): (r: string)
    ensures |r| <= |s|
    ensures r != "" ==> !IsWhitespace(r[0]) && !IsWhitespace(r[|r| - 1])
  {
    var rest := s[LeadingWhitespace(s)..];
    var t := TrailingWhitespace(rest);
    var r := rest[..|rest| - t];
    assert r != "" ==> r[0] == rest[0] && r[|r| - 1] == rest[|rest| - 1 - t];
    r
  }

  /** The name check rejects exactly the names made only of whitespace. */
  lemma TrimEmptyIffBlank(s: string)
    ensures Trim(s) == "" <==> AllWhitespace(s)
  {
    var n := LeadingWhitespace(s);
    var rest := s[n..];
    if n < |s| {
      assert !IsWhitespace(rest[0]);
      var t := TrailingWhitespace(rest);
      assert t < |rest|;
    }
  }

  /** Trim removes whitespace only: the input is the result with whitespace around it. */
  lemma TrimIsInfix(s: string)
    ensures exists i, j {:trigger s[i..j]} :: 0 <= i <= j <= |s| && Trim(s) == s[i..j]
                && AllWhitespace(s[..i]) && AllWhitespace(s[j..])
  {
    var n := LeadingWhitespace(s);
    var rest := s[n..];
    var t := TrailingWhitespace(rest);
    var j := n + |rest| - t;
    assert Trim(s) == s[n..j];
    assert AllWhitespace(s[..n]) by {
      forall k | 0 <= k < n ensures IsWhitespace(s[..n][k]) {
        assert s[..n][k] == s[k];
      }
    }
    assert AllWhitespace(s[j..]) by {
      forall k | 0 <= k < |s| - j ensures IsWhitespace(s[j..][k]) {
        assert s[j..][k] == rest[|rest| - t + k];
      }
    }
  }

  /** Trimming twice is trimming once. */
  lemma TrimIdempotent(s: string)
    ensures Trim(Trim(s)) == Trim(s)
  {
    var r := Trim(s);
    if r != "" {
      assert LeadingWhitespace(r) == 0;
      assert TrailingWhitespace(r) == 0;
      assert r[0..][..|r|] == r;
    }
  }

  // ---------------------------------------------------------------------
  // Leader lookup and group ids
  // ---------------------------------------------------------------------

  /** A leader's `id` in the static table: one group id or an array of them. */
  datatype LeaderId = Single(id: string) | Several(ids: seq<string>)

  datatype Leader = Leader(name: string, id: LeaderId)

  /** `groupLeaders.find(l => l.name === name)`: the first entry with exactly that name. */
  function FindLeader(leaders: seq<Leader>, name: string): (r: Option<Leader>)
    ensures r.None? <==> forall i :: 0 <= i < |leaders| ==> leaders[i].name != name
    ensures r.Some? ==> exists i :: 0 <= i < |leaders| && leaders[i] == r.value && r.value.name == name
                                   && forall j :: 0 <= j < i ==> leaders[j].name != name
  {
    if leaders == [] then None
    else if leaders[0].name == name then Some(leaders[0])
    else
      var r := FindLeader(leaders[1..], name);
      assert forall i :: 1 <= i < |leaders| ==> leaders[i] == leaders[1..][i - 1];
      if r.Some? then
        var k :| 0 <= k < |leaders[1..]| && leaders[1..][k] == r.value && r.value.name == name
                 && forall j :: 0 <= j < k ==> leaders[1..][j].name != name;
        assert leaders[k + 1] == r.value;
        r
      else r
  }

  /**
   * `Array.isArray(leader.id) ? leader.id : [leader.id]`: an array of ids is
   * used as it is, a single id becomes a list of one.
   */
  function IdList(leader: Leader): (ids: seq<string>)
    ensures leader.id.Several? ==> ids == leader.id.ids
    ensures leader.id.Single? ==> |ids| == 1 && ids[0] == leader.id.id
  {
    match leader.id
    case Single(id) => [id]
    case Several(ids) => ids
  }

  // ---------------------------------------------------------------------
  // Rosters
  // ---------------------------------------------------------------------

  /** The answer to `GET /organizations/{id}/members/roles`: its ok flag and the parsed body (None for `null`). */
  datatype Response = Response(ok: bool, data: Option<seq<Member>>)

  /** The id of the first roster request that did not answer ok, if any. */
  function FirstFailure(ids: seq<string>, fetch: string -> Response): (r: Option<string>)
    ensures r.None? <==> forall i :: 0 <= i < |ids| ==> fetch(ids[i]).ok
    ensures r.Some? ==> exists i :: 0 <= i < |ids| && ids[i] == r.value && !fetch(ids[i]).ok
                                   && forall j :: 0 <= j < i ==> fetch(ids[j]).ok
  {
    if ids == [] then None
    else if !fetch(ids[0]).ok then Some(ids[0])
    else
      var r := FirstFailure(ids[1..], fetch);
      assert forall i :: 1 <= i < |ids| ==> ids[i] == ids[1..][i - 1];
      if r.Some? then
        var k :| 0 <= k < |ids[1..]| && ids[1..][k] == r.value && !fetch(ids[1..][k]).ok
                 && forall j :: 0 <= j < k ==> fetch(ids[1..][j]).ok;
        assert ids[k + 1] == ids[1..][k];
        r
      else r
  }

  /**
   * `responses.flatMap(data => data || [])`: every roster in id order, a
   * `null` body counting as empty. Nothing is joined in that no roster holds.
   */
  function Rosters(ids: seq<string>, fetch: string -> Response): (all: seq<Member>)
    ensures ids == [] ==> all == []
    ensures forall m :: m in all ==> exists i :: 0 <= i < |ids| && m in fetch(ids[i]).data.GetOr([])
  {
    if ids == [] then []
    else
      var rest := Rosters(ids[1..], fetch);
      assert forall i :: 1 <= i < |ids| ==> ids[i] == ids[1..][i - 1];
      fetch(ids[0]).data.GetOr([]) + rest
  }

  /** Joining rosters respects id order: the rosters of `a + b` are those of `a` followed by those of `b`. */
  lemma {:induction false} RostersAppend(a: seq<string>, b: seq<string>, fetch: string -> Response)
    ensures Rosters(a + b, fetch) == Rosters(a, fetch) + Rosters(b, fetch)
    decreases |a|
  {
    if a == [] {
      assert a + b == b;
    } else {
      assert (a + b)[1..] == a[1..] + b;
      RostersAppend(a[1..], b, fetch);
    }
  }

  /**
   * One id contributes exactly its own response list, in that list's order
   * and with its repeats. With `RostersAppend` this determines the join for
   * every id list.
   */
  lemma RostersSingle(id: string, fetch: string -> Response)
    ensures Rosters([id], fetch) == fetch(id).data.GetOr([])
  {
    assert [id][1..] == [];
  }

  /** Every member of the joined list comes from the roster of one of the ids, and every roster member is in it. */
  lemma {:induction false} RostersMembers(ids: seq<string>, fetch: string -> Response, m: Member)
    ensures m in Rosters(ids, fetch) <==> exists i :: 0 <= i < |ids| && m in fetch(ids[i]).data.GetOr([])
    decreases |ids|
  {
    if ids != [] {
      RostersMembers(ids[1..], fetch, m);
      assert forall i :: 1 <= i < |ids| ==> ids[i] == ids[1..][i - 1];
      if exists i :: 0 <= i < |ids| && m in fetch(ids[i]).data.GetOr([]) {
        var i :| 0 <= i < |ids| && m in fetch(ids[i]).data.GetOr([]);
        if i > 0 {
          assert ids[1..][i - 1] == ids[i];
        }
      }
    }
  }

  // ---------------------------------------------------------------------
  // Filtering
  // ---------------------------------------------------------------------

  /** The members that still miss a birth year or a phone, in roster order. */
  function Incomplete(all: seq<Member>): (kept: seq<Member>)
    ensures |kept| <= |all|
    ensures forall m :: m in kept <==> m in all && NeedsCompletion(m)
  {
    if all == [] then []
    else
      var rest := Incomplete(all[1..]);
      assert forall m :: m in all <==> m == all[0] || m in all[1..];
      (if NeedsCompletion(all[0]) then [all[0]] else []) + rest
  }

  /** Filtering keeps roster order: it distributes over concatenation. */
  lemma {:induction false} IncompleteAppend(a: seq<Member>, b: seq<Member>)
    ensures Incomplete(a + b) == Incomplete(a) + Incomplete(b)
    decreases |a|
  {
    if a == [] {
      assert a + b == b;
    } else {
      assert (a + b)[1..] == a[1..] + b;
      IncompleteAppend(a[1..], b);
    }
  }

  /** No deduplication: a member that needs completion is kept as many times as it occurs. */
  lemma {:induction false} IncompleteKeepsDuplicates(all: seq<Member>, m: Member)
    ensures multiset(Incomplete(all))[m] == if NeedsCompletion(m) then multiset(all)[m] else 0
    decreases |all|
  {
    if all != [] {
      IncompleteKeepsDuplicates(all[1..], m);
      assert all == [all[0]] + all[1..];
      assert multiset(all) == multiset([all[0]]) + multiset(all[1..]);
    }
  }

  /** One more roster member either extends the kept list by itself or leaves it as it was. */
  lemma IncompleteStep(all: seq<Member>, i: nat)
    requires i < |all|
    ensures Incomplete(all[..i + 1]) == Incomplete(all[..i]) + (if NeedsCompletion(all[i]) then [all[i]] else [])
  {
    assert all[..i + 1] == all[..i] + [all[i]];
    IncompleteAppend(all[..i], [all[i]]);
    assert Incomplete([all[i]]) == (if NeedsCompletion(all[i]) then [all[i]] else []) by {
      assert [all[i]][1..] == [];
    }
  }

  /**
   * The filter and the `push` loop: every member of `all` that needs
   * completion is appended to `prior`, in order; `prior` itself is neither
   * replaced nor deduplicated.
   */
  method AppendIncomplete(prior: seq<Member>, all: seq<Member>) returns (filtered: seq<Member>)
    ensures filtered == prior + Incomplete(all)
  {
    filtered := prior;
    for i := 0 to |all|
      invariant filtered == prior + Incomplete(all[..i])
    {
      IncompleteStep(all, i);
      if NeedsCompletion(all[i]) {
        filtered := filtered + [all[i]];
      }
    }
    assert all[..|all|] == all;
  }

  // ---------------------------------------------------------------------
  // The whole submit
  // ---------------------------------------------------------------------

  datatype ResolveError =
    | EmptyName
    | LeaderNotFound
    | FetchFailed(id: string)
      /** Only in the as-written model: `push` called on the stored string. */
    | NotAFunction

  /**
   * The message shown under the input for each failure. A failed roster
   * request's message ends with its group id in parentheses.
   */
  function ErrorMessage(e: ResolveError): (msg: string)
    ensures e.FetchFailed? ==>
      |msg| > |e.id| + 1 && msg[|msg| - |e.id| - 1..|msg| - 1] == e.id && msg[|msg| - 1] == ')'
  {
    match e
    case EmptyName => "이름을 입력해주세요"
    case LeaderNotFound => "그룹장을 찾을 수 없습니다"
    case FetchFailed(id) => "멤버 정보를 가져오는데 실패했습니다 (ID: " + id + ")"
    case NotAFunction => "filteredMembers.push is not a function"
  }

  /** Different failures show different messages, and different failing ids differ in their message. */
  lemma ErrorMessagesDistinct(e1: ResolveError, e2: ResolveError)
    ensures e1 != e2 ==> ErrorMessage(e1) != ErrorMessage(e2)
  {
    if e1.FetchFailed? && e2.FetchFailed? && |e1.id| == |e2.id| {
      var m1, m2 := ErrorMessage(e1), ErrorMessage(e2);
      assert m1[|m1| - |e1.id| - 1..|m1| - 1] == e1.id;
      assert m2[|m2| - |e2.id| - 1..|m2| - 1] == e2.id;
    }
  }

  /**
   * Everything before storage is touched: the trimmed-name check, the
   * leader lookup, one roster request per id, and the joined rosters.
   */
  function Lookup(name: string, leaders: seq<Leader>, fetch: string -> Response): (r: Result<seq<Member>, ResolveError>)
    ensures r == Err(EmptyName) <==> AllWhitespace(name)
    ensures r == Err(LeaderNotFound) <==>
      !AllWhitespace(name) && forall i :: 0 <= i < |leaders| ==> leaders[i].name != Trim(name)
    ensures r.Err? && r.error.FetchFailed? ==>
      exists i :: 0 <= i < |leaders| && leaders[i].name == Trim(name)
                  && (forall j :: 0 <= j < i ==> leaders[j].name != Trim(name))
                  && r.error.id in IdList(leaders[i]) && !fetch(r.error.id).ok
    ensures r.Ok? ==>
      exists i :: 0 <= i < |leaders| && leaders[i].name == Trim(name)
                  && (forall j :: 0 <= j < i ==> leaders[j].name != Trim(name))
                  && (forall id :: id in IdList(leaders[i]) ==> fetch(id).ok)
                  && r.value == Rosters(IdList(leaders[i]), fetch)
    ensures r != Err(NotAFunction)
  {
    TrimEmptyIffBlank(name);
    var trimmed := Trim(name);
    if trimmed == "" then Err(EmptyName)
    else
      match FindLeader(leaders, trimmed)
      case None => Err(LeaderNotFound)
      case Some(leader) =>
        var ids := IdList(leader);
        match FirstFailure(ids, fetch)
        case Some(id) => Err(FetchFailed(id))
        case None => Ok(Rosters(ids, fetch))
  }

  /**
   * `handleSubmit` of the name step, with the stored list read as a parsed
   * list (None when absent). On failure nothing is stored or handed on;
   * on success the result is both what is written back to storage and
   * what is passed to `onSubmit`.
   */
  method Resolve(name: string, leaders: seq<Leader>, fetch: string -> Response, stored: Option<seq<Member>>)
    returns (r: Result<seq<Member>, ResolveError>)
    ensures Lookup(name, leaders, fetch).Err? ==> r == Err(Lookup(name, leaders, fetch).error)
    ensures Lookup(name, leaders, fetch).Ok? ==>
      r == Ok(stored.GetOr([]) + Incomplete(Lookup(name, leaders, fetch).value))
  {
    match Lookup(name, leaders, fetch)
    case Err(e) =>
      r := Err(e);
    case Ok(all) =>
      var filtered := AppendIncomplete(stored.GetOr([]), all);
      r := Ok(filtered);
  }

  // ---------------------------------------------------------------------
  // The stored list as the code reads it
  // ---------------------------------------------------------------------

  /** What is handed on to `onSubmit`: a list, or the stored text as a string. */
  datatype StoredValue = List(members: seq<Member>) | Text(text: string)

  /**
   * The name step as written: storage hands back the stored JSON text,
   * unparsed. Absent or empty text starts from an empty list; any other
   * text stays a string, so the first `push` onto it throws. When nothing
   * is kept, the string itself is handed on to `onSubmit`, and storage
   * receives `JSON.stringify` of that string: the text quoted as a JSON
   * string (`[]` is written as `"[]"`), which the member screen's
   * `JSON.parse` turns back into a string rather than a list.
   */
  function ResolveAsWritten(name: string, leaders: seq<Leader>, fetch: string -> Response, slot: Option<string>)
    : (r: Result<StoredValue, ResolveError>)
    ensures Lookup(name, leaders, fetch).Err? ==> r == Err(Lookup(name, leaders, fetch).error)
    ensures r == Err(NotAFunction) <==>
      && Lookup(name, leaders, fetch).Ok?
      && slot.Some? && slot.value != ""
      && exists m :: m in Lookup(name, leaders, fetch).value && NeedsCompletion(m)
    ensures
      && Lookup(name, leaders, fetch).Ok?
      && slot.Some? && slot.value != ""
      && Incomplete(Lookup(name, leaders, fetch).value) == []
      ==> r == Ok(Text(slot.value))
  {
    match Lookup(name, leaders, fetch)
    case Err(e) => Err(e)
    case Ok(all) =>
      var kept := Incomplete(all);
      if slot.None? || slot.value == "" then Ok(List(kept))
      else if kept == [] then Ok(Text(slot.value))
      else
        assert kept[0] in kept;
        Err(NotAFunction)
  }

  /**
   * Without stored text the as-written name step agrees with `Resolve`
   * started from an empty list: it hands on exactly the incomplete members.
   */
  lemma ResolveAsWrittenWithoutStoredText(name: string, leaders: seq<Leader>, fetch: string -> Response, slot: Option<string>)
    requires slot.None? || slot == Some("")
    ensures Lookup(name, leaders, fetch).Ok? ==>
      ResolveAsWritten(name, leaders, fetch, slot) == Ok(List(Incomplete(Lookup(name, leaders, fetch).value)))
  {
  }

  /**
   * A stored list that still holds `[]` (the text a previous, empty run
   * writes) makes the lookup of a leader whose group has one incomplete
   * member fail, where the corrected `Resolve` returns that member.
   */
  lemma StoredTextBreaksResolve()
    ensures
      var lee := Member("u1", "Lee", "", "", "", "", "");
      var leaders := [Leader("Kim", Single("g1"))];
      var fetch := (id: string) => Response(true, Some([lee]));
      && Lookup("Kim", leaders, fetch) == Ok([lee])
      && Incomplete([lee]) == [lee]
      && ResolveAsWritten("Kim", leaders, fetch, Some("[]")) == Err(NotAFunction)
  {
    var lee := Member("u1", "Lee", "", "", "", "", "");
    var leaders := [Leader("Kim", Single("g1"))];
    var fetch := (id: string) => Response(true, Some([lee]));
    assert LeadingWhitespace("Kim") == 0;
    assert TrailingWhitespace("Kim") == 0;
    assert Trim("Kim") == "Kim";
    assert FindLeader(leaders, "Kim") == Some(leaders[0]);
    assert Rosters(["g1"], fetch) == [lee];
    assert lee in Incomplete([lee]);
  }
}

=== FILE: Wrappers.dfy ===
/** Option and Result, the two failure-carrying datatypes the model uses. */
module Wrappers {

  datatype Option<+T> = None | Some(value: T) {
    function GetOr(default: T): T {
      match this
      case Some(v) => v
      case None => default
    }
  }

  datatype Result<+R, +E> = Ok(value: R) | Err(error: E)
}
